=== FILE: README.md ===
# oak-dual-camera-server: a verified model of the camera core

This project models the camera core of the server, `src/rpi_dual_cam_server/cam_server.py`, in Dafny:

- `DevicePipelines`: one camera label's session. It holds the cached MJPEG preview frame, the recording flag and the raw `.h264` file that is open for recording. Its capture thread opens the device with a bounded retry, then drains the two device queues over and over.
- `CameraManager`: the registry of sessions keyed by label in insertion order. It tracks the selected label, toggles and sets the selection, and starts and stops recording on the selected camera. Stopping remuxes the raw file to an `.mp4` sibling.

Everything is modelled as pure functions over immutable values:

- The local file system is a map from path to bytes.
- A device queue is a sequence of packets.
- The wall clock, the result of `ffmpeg`, and the device library's successes and failures are parameters.

Modules, one per file:

| module | file | contents |
|---|---|---|
| `Basics` | basics.dfy | bytes, `Option`, concatenation of packet payloads |
| `Clock` | clock.dfy | `strftime("%Y%m%d_%H%M%S")` and `date.isoformat()` as zero-padded digits, with parsers |
| `Files` | files.dfy | `pathlib` suffix, stem and `with_suffix`; create, append and unlink on the disk map |
| `Naming` | naming.dfy | `{label}_{stamp}.h264` recording names and their `.mp4` siblings |
| `PacketQueue` | queues.dfy | depthai non-blocking output queues (`maxSize` 10 and 30, oldest dropped) and `tryGet` |
| `Device` | device.dfy | the session state and `start_recording` / `stop_recording` |
| `Capture` | capture.dfy | one drain-loop iteration, as a function and as the source's `tryGet` loops, and runs of iterations |
| `Reconnect` | reconnect.dfy | the device-open retry loop |
| `CameraManager` | manager.dfy | construction, toggle, selection, recording control, and any interleaving of requests and drain iterations |

The tests patch `_open_new_chunk_locked`, `_current_chunk_path` and `_enqueue_remux` (tests/test_cam_server.py:21, 29-30), which belong to a chunked recorder with a remux queue. `cam_server.py` defines none of them, so the model follows `cam_server.py`:

- one raw file per recording;
- a synchronous remux on stop;
- a single path, or `None`, as the result of stopping.

## Model

| member | source | states |
|---|---|---|
| Device.NewSessionIsIdle | src/rpi_dual_cam_server/cam_server.py:28-30 | A new session is not recording, has no open file and no cached frame. Stopping it returns `None`. It keeps the given serial and label. |
| Device.StartRecording | src/rpi_dual_cam_server/cam_server.py:52-59 | The returned path lies in `out_dir` and is a raw recording name of this camera's label, with suffix `.h264`. The label and the time stamp read back from that name are the camera's label and `now`. Afterwards the session is recording, and the open file is exactly that path. That file exists and is empty (opened with `"wb"`). Every other file is unchanged. |
| Device.StopRecording | src/rpi_dual_cam_server/cam_server.py:61-70 | Afterwards the session is not recording and has no open file. The result is a path exactly when a file was open, and then it is that file's path. The cached frame, label and serial are kept. |
| Device.StartThenStop | src/rpi_dual_cam_server/cam_server.py:52-70 | A stop right after a start returns the path the start returned. |
| Device.StopTwice | src/rpi_dual_cam_server/cam_server.py:61-70 | A second stop in a row returns `None` and leaves the session as it was. |
| Device.RestartOrphansFirstFile | src/rpi_dual_cam_server/cam_server.py:56-58 | Two starts at different instants without a stop open two different paths. The next stop returns only the second. The first file stays on disk, untouched and no longer tracked. |
| Clock.Stamp | src/rpi_dual_cam_server/cam_server.py:53 | A timestamp is 15 characters: eight digits, `_`, six digits. |
| Clock.StampRoundTrip | src/rpi_dual_cam_server/cam_server.py:53 | Parsing a timestamp gives back the date and time it was made from. |
| Clock.StampInjective | src/rpi_dual_cam_server/cam_server.py:53 | Two valid instants with the same timestamp are the same instant. |
| Clock.DigitsRoundTrip | src/rpi_dual_cam_server/cam_server.py:53 | A zero-padded field reads back as the number that was written. |
| Clock.IsoDate | src/rpi_dual_cam_server/cam_server.py:166 | `str(date.today())` has 10 characters, dashes at positions 4 and 7, and no `/`. So the day's directory is one path component. |
| Clock.IsoDateRoundTrip | src/rpi_dual_cam_server/cam_server.py:166 | Parsing the ISO date gives back the date. |
| Files.LastDot | src/rpi_dual_cam_server/cam_server.py:187 | The index `rfind('.')` returns: a `.`, with no `.` after it, or -1. |
| Files.WithSuffix | src/rpi_dual_cam_server/cam_server.py:187 | `with_suffix(x)` keeps the parent directory, and the new name ends in `x`. |
| Files.WithSuffixKeepsStem | src/rpi_dual_cam_server/cam_server.py:187 | With a single extension, `with_suffix` keeps the stem, and the new suffix is exactly the requested one. |
| Naming.RecordingNameRoundTrip | src/rpi_dual_cam_server/cam_server.py:53-55 | `{label}_{ts}.h264` has the raw-name shape. Its label and instant can be read back, its suffix is `.h264`, and its stem is `{label}_{ts}`. |
| Naming.RawNameSuffix | src/rpi_dual_cam_server/cam_server.py:55 | Every raw name ends in suffix `.h264`, whatever dots the label contains. |
| Naming.RecordingNameInjective | src/rpi_dual_cam_server/cam_server.py:53-55 | Two recordings have the same file name exactly when they have the same label and the same second. |
| Naming.RawNamesOfDistinctLabels | src/rpi_dual_cam_server/cam_server.py:55 | Cameras with different labels never write to the same raw file name. |
| Naming.Mp4SiblingOfRawName | src/rpi_dual_cam_server/cam_server.py:187 | The `.mp4` sibling is in the same directory with the same stem and suffix `.mp4`. It is never the raw recording name of any camera. |
| PacketQueue.Push | src/rpi_dual_cam_server/cam_server.py:116-121 | A packet arriving at a full non-blocking queue drops the oldest. The queue holds the newest `maxSize` packets. |
| PacketQueue.PushAll | src/rpi_dual_cam_server/cam_server.py:116-121 | After any arrivals the queue holds the newest `maxSize` packets of its whole history. If nothing overflowed, it holds all of them in order. |
| PacketQueue.NewestAssoc | src/rpi_dual_cam_server/cam_server.py:116-121 | Dropping the oldest at each arrival is the same as keeping the newest `maxSize` once at the end. |
| Capture.WritePackets | src/rpi_dual_cam_server/cam_server.py:139-144 | Writing drained packets one by one appends their in-order concatenation to the open file. With no open file, or an open file that is not on disk, nothing changes. |
| Capture.DrainStep | src/rpi_dual_cam_server/cam_server.py:129-149 | One iteration takes at most one preview packet. The cached frame becomes that packet, or is unchanged if the preview queue was empty. The recording queue ends empty. While recording, the open file grows by the concatenation of the drained packets. While not recording, or with no open file on disk, the disk is unchanged. |
| Capture.RestartOrphansRecordedBytes | src/rpi_dual_cam_server/cam_server.py:52-70 | A start, a drain iteration and a second start at another instant leave the first file on disk holding exactly the drained packets. The next stop returns only the second path. |
| Capture.RestartSameSecondTruncates | src/rpi_dual_cam_server/cam_server.py:52-70 | A second start within the same second gives the same name. `"wb"` truncates the first file, so the drained packets are gone, and the next stop returns that same path. |
| Capture.DrainIteration | src/rpi_dual_cam_server/cam_server.py:129-149 | The source's `tryGet` loops, run to the first `None`, compute exactly the iteration `DrainStep` describes. |
| Capture.Tick | src/rpi_dual_cam_server/cam_server.py:116-149 | After arrivals and an iteration, both queues are within their `maxSize` and the recording queue is empty. While recording, the file gains the newest 30 arrivals. While idle, the disk is unchanged. |
| Capture.RecordingIsLossless | src/rpi_dual_cam_server/cam_server.py:119-144 | While recording, if at most 30 recording packets arrive between two iterations, the open file receives every packet exactly once, in emission order. No other file changes. |
| Capture.IdleWritesNothing | src/rpi_dual_cam_server/cam_server.py:145-149 | While not recording, any run leaves the disk unchanged and still empties the recording queue. |
| Capture.TickPreviewWithin | src/rpi_dual_cam_server/cam_server.py:116-135 | After one tick, the preview queue and the cached frame hold only packets that were queued or arrived. Otherwise the cached frame is unchanged. |
| Capture.PreviewComesFromDevice | src/rpi_dual_cam_server/cam_server.py:130-135 | After any run, the cached frame is either the earlier frame or a packet the device sent. |
| Reconnect.OpenLoop | src/rpi_dual_cam_server/cam_server.py:112-127 | The loop makes at most 11 attempts. It opens on a successful attempt and gives up only after the 11th attempt fails. A cancellation happens only with the stop event set. |
| Reconnect.OpenLoopOutcome | src/rpi_dual_cam_server/cam_server.py:112-127 | Every attempt before the last one failed with no stop seen. The last one opened the device, was the 11th failure, or met the stop event. |
| Reconnect.OpenedIff | src/rpi_dual_cam_server/cam_server.py:112-127 | The device opens on attempt `n` exactly when `n <= 11`, the earlier attempts failed with no stop seen, and attempt `n` succeeded. |
| Reconnect.GaveUpIff | src/rpi_dual_cam_server/cam_server.py:112-127 | The failure propagates exactly when eleven attempts in a row fail with no stop seen. |
| Reconnect.OpenDevice | src/rpi_dual_cam_server/cam_server.py:112-127 | The counter-and-sleep loop as written gives the outcome of `OpenLoop`. It sleeps once per retried failure, never more than 10 times. |
| CameraManager.Labels | src/rpi_dual_cam_server/cam_server.py:169 | `list(mapping.keys())` lists the labels in insertion order. A mapping whose labels are distinct, as a dict's keys are, gives a label list without repeats; the manager invariant relies on this. |
| CameraManager.Register | src/rpi_dual_cam_server/cam_server.py:160-163 | Each label in the mapping gets a new, idle session with its own serial and label. There are no other entries. |
| CameraManager.New | src/rpi_dual_cam_server/cam_server.py:155-166 | Construction fails (`IndexError`) exactly for an empty mapping. Otherwise the first label is selected, the output directory is `/output/videos/<ISO date>`, and every session is new. The result satisfies the manager invariant. |
| CameraManager.IndexOf | src/rpi_dual_cam_server/cam_server.py:170 | `labels.index(x)` is the first position holding `x`. |
| CameraManager.IndexOfDistinct | src/rpi_dual_cam_server/cam_server.py:170 | In a list without repeats, `index` returns the element's own position. |
| CameraManager.NextLabel | src/rpi_dual_cam_server/cam_server.py:170-171 | `labels[(idx + 1) % len]` is the following label, or the first one after the last. |
| CameraManager.NextLabelMoves | src/rpi_dual_cam_server/cam_server.py:171 | With two or more labels, the next label differs from the current one. |
| CameraManager.AdvanceAt | src/rpi_dual_cam_server/cam_server.py:171 | Within one round, `k` steps from position `i` reach position `i + k`, wrapping around. |
| CameraManager.Toggle | src/rpi_dual_cam_server/cam_server.py:168-172 | `toggle()` selects and returns the next registered label in insertion order, wrapping around. Nothing else changes, and with two or more labels the selection moves. |
| CameraManager.ToggleN | src/rpi_dual_cam_server/cam_server.py:168-172 | `k` toggles move the selection `k` places and change nothing else. |
| CameraManager.ToggleRoundTrip | src/rpi_dual_cam_server/cam_server.py:168-172 | As many toggles as there are cameras return the manager to where it started. |
| CameraManager.ToggleNoEarlyReturn | src/rpi_dual_cam_server/cam_server.py:168-172 | Fewer toggles than there are cameras never return to the starting camera. |
| CameraManager.ToggleVisitsAll | src/rpi_dual_cam_server/cam_server.py:168-172 | Within one round of toggles, every registered camera is selected. |
| CameraManager.SetCurrent | src/rpi_dual_cam_server/cam_server.py:174-176 | A registered label becomes the selection. An unknown label leaves the manager unchanged. |
| CameraManager.SelectionRoutesQueries | src/rpi_dual_cam_server/cam_server.py:174-214 | The manager's `latest_jpeg()` and `is_recording()` delegate to the selected session's getters. After a selection, they report the selected camera's frame and flag. After an unknown label, they report what they reported before. |
| CameraManager.IsRecording | src/rpi_dual_cam_server/cam_server.py:213-214 | The manager's `is_recording()` is true exactly when the selected camera has a recording file open. |
| Device.IsRecording | src/rpi_dual_cam_server/cam_server.py:49-50 | In a consistent session, `is_recording()` is true exactly when a recording file is open. |
| Device.RecordingControlKeepsFrame | src/rpi_dual_cam_server/cam_server.py:45-70 | `latest_jpeg()` reports the same cached frame before a start, after it, and after the following stop: recording control never touches the frame. |
| CameraManager.WithActiveWf | src/rpi_dual_cam_server/cam_server.py:182 | Replacing the selected session with one that keeps the session invariants keeps the manager invariant. |
| CameraManager.StartRecording | src/rpi_dual_cam_server/cam_server.py:181-182 | The selected camera records into `out_dir/{label}_{ts}.h264`, and the result is that path. Other cameras and the other files are unchanged. Every open file still exists. |
| CameraManager.Publish | src/rpi_dual_cam_server/cam_server.py:186-210 | A successful remux writes the same-stem `.mp4` sibling and deletes the raw file. Other files are unchanged. A failed remux leaves the disk alone and keeps the raw path. |
| CameraManager.StopRecording | src/rpi_dual_cam_server/cam_server.py:184-211 | With no open file, the result is `None` and the disk is untouched. On remux success, the result is the `.mp4` sibling, holding the remuxed bytes, and the raw file is gone. On remux failure, the result is the raw path and the disk is unchanged. In every case the selected camera stops recording and the other cameras are untouched. |
| CameraManager.StopLeavesOtherCamerasAlone | src/rpi_dual_cam_server/cam_server.py:184-211 | Stopping one camera never changes another camera's open file, and every open file still exists afterwards. |
| CameraManager.StopReturnsExistingFile | src/rpi_dual_cam_server/cam_server.py:184-211 | A path returned by `stop_recording()` names a file that exists. |
| CameraManager.Drain | src/rpi_dual_cam_server/cam_server.py:129-149 | A drain iteration of any camera changes only that camera's session and open file. It keeps the manager invariant and the set of files. |
| CameraManager.Apply | src/rpi_dual_cam_server/cam_server.py:168-214 | Every request and drain iteration keeps these invariants: the manager invariant, the open files on disk, the registry, and the output directory. |
| CameraManager.ServeInvariants | src/rpi_dual_cam_server/cam_server.py:168-214 | Any sequence of requests and drain iterations keeps those invariants. |
| CameraManager.ServeKeepsInvariants | src/rpi_dual_cam_server/cam_server.py:155-214 | From construction on, under any interleaving, with file writes and closes that succeed: the registered cameras stay exactly the mapping's labels, and the selection stays one of them. Each recording flag agrees with its open file. Every open file lies in the day's directory, has a raw name carrying its camera's label, and exists. |

## Left out

- Threads, the lock, the stop event and `stop()`/`join`: requests and drain iterations are modelled as a sequence of atomic steps. The unguarded read of `_recording` and the `time.sleep` pauses are scheduling concerns. The retry loop reports how many one-second sleeps it takes.
- Pipeline construction and `dai.Device` (camera resolution, encoders, `preview_fps`, `preview_size`): these are hardware configuration. Opening the device is an oracle `opens(k)`. The queues' `maxSize` values are kept. The session's `mxid` is stored but never passed to `dai.Device(pipeline)` (cam_server.py:20, 115), so each session opens whichever device is free first. Which physical camera a label drives is therefore not fixed by the mapping, and the model does not bind a label to a device.
- `datetime.now()` and `date.today()`: they are parameters.
- Failing `write` or `close` (cam_server.py:66, 143) is not modelled. A raising write ends the capture thread: the queues are never drained again and the frame stops updating while `is_recording()` stays true. A raising close leaves the flag cleared with the file still set, which the session invariant (flag set exactly when a file is open) would not survive. The model's writes and closes always succeed.
- `out_dir.mkdir(parents=True, exist_ok=True)`: directories are not modelled, and a path's directory is just a string. A failing `mkdir` or `open` is not modelled.
- File buffering and the garbage-collected close of the handle a second `start_recording` orphans: bytes are written straight to the file's path.
- Device.StartRecording: the orphaned handle's data is not modelled as lost or flushed late, because the model has no buffers.
- The `ffmpeg` subprocess: its outcome is a parameter, either the bytes of the `.mp4` or a failure. Partial output from a failed run and failures of `unlink` are not modelled.
- Clock.Stamp: `%Y` is zero-padded to four digits for years 1 to 9999. glibc's unpadded years below 1000 are not modelled, because the server runs in the present.
- Labels containing `/`: the model keeps the label inside the file name. In the source, such a label names a sub-directory of `out_dir` that `mkdir` (line 54) does not create, so `open` (line 57) raises `FileNotFoundError` unless that sub-directory already exists. A label starting with `/` makes the joined path absolute, outside `out_dir`. Labels are configuration, not input.
- Capture.RecordingIsLossless: holds only when at most 30 recording packets arrive between two iterations. When more arrive, `Tick` states which packets are dropped (all but the newest 30), but no lemma accounts for the lost bytes.
- `app.py` (the Flask layer) and `s3_upload/s3uploader.py` (an upload script): these are HTTP and network plumbing outside the camera core.
- The chunk rollover, remux worker and chunk list that the tests reference (`_open_new_chunk_locked`, `_enqueue_remux`, `_current_chunk_path`): `cam_server.py` has none of them.

=== FILE: basics.dfy ===
/** Value types shared by every module of the model: bytes, optional values and
    the concatenation of byte strings. */
module Basics {

  /** One byte of a packet payload or of a file. */
  newtype byte = x: int | 0 <= x < 256

  type Bytes = seq<byte>

  /** Python's `None`-or-value. */
  datatype Option<+T> = None | Some(value: T)

  /** `b"".join(chunks)`: the chunks written one after the other, first chunk first. */
  function Concat(chunks: seq<Bytes>): Bytes
  {
    if chunks == [] then [] else Concat(chunks[..|chunks| - 1]) + chunks[|chunks| - 1]
  }

  /** Writing one more chunk extends the concatenation by exactly that chunk. */
  lemma ConcatSnoc(chunks: seq<Bytes>, x: Bytes)
    ensures Concat(chunks + [x]) == Concat(chunks) + x
  {
    assert (chunks + [x])[..|chunks|] == chunks;
  }

  /** Concatenation of two runs of chunks is the concatenation of their concatenations. */
  lemma {:induction false} ConcatSplit(a: seq<Bytes>, b: seq<Bytes>)
    ensures Concat(a + b) == Concat(a) + Concat(b)
    decreases |b|
  {
    if b == [] {
      assert a + b == a;
    } else {
      var init := b[..|b| - 1];
      assert a + b == (a + init) + [b[|b| - 1]];
      ConcatSnoc(a + init, b[|b| - 1]);
      ConcatSplit(a, init);
      assert b == init + [b[|b| - 1]];
      ConcatSnoc(init, b[|b| - 1]);
    }
  }

  /** Writing the chunks front to back: the first chunk, then the rest. */
  lemma ConcatCons(x: Bytes, rest: seq<Bytes>)
    ensures Concat([x] + rest) == x + Concat(rest)
  {
    ConcatSplit([x], rest);
    assert [x] == [] + [x];
    ConcatSnoc([], x);
  }
}

=== FILE: capture.dfy ===
/** The capture thread's drain loop (`_run`, after the device is open): one
    iteration takes at most one preview packet into the frame cache and empties
    the recording queue, writing its packets to the open file only while
    recording. The loop's timing is left to the thread; here an iteration is a
    step over the two queues, and a run is a sequence of (arrivals, iteration)
    ticks. */
module Capture {
  import opened Basics
  import opened Clock
  import opened Files
  import opened Naming
  import opened PacketQueue
  import opened Device

  /** The packets waiting in the preview (MJPEG) and recording (H.264) queues. */
  datatype Queues = Queues(preview: seq<Bytes>, rec: seq<Bytes>)

  datatype Step = Step(session: Session, disk: Disk, queues: Queues)

  /** The recording-queue drain when `_recording` was seen set: every packet,
      in order, is written to the open file if one is open at that moment. */
  function WritePackets(s: Session, d: Disk, pkts: seq<Bytes>): (r: Disk)
    ensures r.Keys == d.Keys
    ensures s.file.Some? && s.file.value in d ==>
              r == d[s.file.value := d[s.file.value] + Concat(pkts)]
    ensures s.file.None? || s.file.value !in d ==> r == d
    decreases |pkts|
  {
    if pkts == [] then
      assert s.file.Some? && s.file.value in d ==> d[s.file.value] + [] == d[s.file.value];
      d
    else
      var d1 := if s.file.Some? then Append(d, s.file.value, pkts[0]) else d;
      var r := WritePackets(s, d1, pkts[1..]);
      assert pkts == [pkts[0]] + pkts[1..];
      ConcatCons(pkts[0], pkts[1..]);
      assert s.file.Some? && s.file.value in d ==>
        d1[s.file.value] + Concat(pkts[1..]) == d[s.file.value] + Concat(pkts);
      r
  }

  /** Writing one more packet extends what the drain has written by that packet. */
  lemma WritePacketsSnoc(s: Session, d: Disk, pkts: seq<Bytes>, x: Bytes)
    ensures var w := WritePackets(s, d, pkts);
            WritePackets(s, d, pkts + [x]) == if s.file.Some? then Append(w, s.file.value, x) else w
  {
    ConcatSnoc(pkts, x);
    if s.file.Some? && s.file.value in d {
      var p := s.file.value;
      assert d[p] + Concat(pkts) + x == d[p] + Concat(pkts + [x]);
    }
  }

  /** One iteration of the drain loop. */
  function DrainStep(s: Session, d: Disk, q: Queues): (r: Step)
    ensures r.session == s.(preview := r.session.preview)
    ensures q.preview == [] ==> LatestJpeg(r.session) == LatestJpeg(s) && r.queues.preview == []
    ensures q.preview != [] ==>
              LatestJpeg(r.session) == Some(q.preview[0]) && [q.preview[0]] + r.queues.preview == q.preview
    ensures r.queues.rec == []
    ensures r.disk.Keys == d.Keys
    ensures !IsRecording(s) ==> r.disk == d
    ensures IsRecording(s) && s.file.Some? && s.file.value in d ==>
              r.disk == d[s.file.value := d[s.file.value] + Concat(q.rec)]
    ensures IsRecording(s) && (s.file.None? || s.file.value !in d) ==> r.disk == d
  {
    var (pkt, restPreview) := TryGet(q.preview);
    var s1 := if pkt.Some? then s.(preview := Some(pkt.value)) else s;
    var d1 := if s.recording then WritePackets(s, d, q.rec) else d;
    Step(s1, d1, Queues(restPreview, []))
  }

  /** The same iteration as `_run` runs it, one `tryGet()` at a time: the
      preview queue is polled once; the recording queue is polled until it reports
      empty, and each packet is written under the lock only while a file is open. */
  method DrainIteration(s: Session, d: Disk, q: Queues) returns (s': Session, d': Disk, q': Queues)
    ensures Step(s', d', q') == DrainStep(s, d, q)
    ensures q'.rec == [] && |q'.preview| == if q.preview == [] then 0 else |q.preview| - 1
    ensures IsRecording(s) && s.file.Some? && s.file.value in d ==>
              d' == d[s.file.value := d[s.file.value] + Concat(q.rec)]
    ensures !IsRecording(s) ==> d' == d
  {
    s' := s;
    d' := d;
    assert q.rec[..0] == [];
    var got := TryGet(q.preview);
    if got.0.Some? {
      s' := s'.(preview := Some(got.0.value));
    }
    var previewLeft := got.1;
    var next := TryGet(q.rec);
    ghost var k := 0;
    if s.recording {
      while next.0.Some?
        invariant 0 <= k <= |q.rec|
        invariant next.0.Some? ==> k < |q.rec| && next.0.value == q.rec[k] && next.1 == q.rec[k + 1..]
        invariant next.0.None? ==> k == |q.rec| && next.1 == []
        invariant d' == WritePackets(s, d, q.rec[..k])
        decreases |q.rec| - k
      {
        if s'.file.Some? {
          d' := Append(d', s'.file.value, next.0.value);
        }
        WritePacketsSnoc(s, d, q.rec[..k], q.rec[k]);
        assert q.rec[..k + 1] == q.rec[..k] + [q.rec[k]];
        var rest := next.1;
        assert rest == q.rec[k + 1..];
        k := k + 1;
        if rest != [] {
          assert rest[0] == q.rec[k];
          assert rest[1..] == q.rec[k + 1..];
        }
        next := TryGet(rest);
      }
    } else {
      while next.0.Some?
        invariant 0 <= k <= |q.rec|
        invariant next.0.Some? ==> k < |q.rec| && next.1 == q.rec[k + 1..]
        invariant next.0.None? ==> k == |q.rec| && next.1 == []
        decreases |q.rec| - k
      {
        k := k + 1;
        next := TryGet(next.1);
      }
    }
    assert q.rec[..k] == q.rec;
    q' := Queues(previewLeft, next.1);
    var expected := DrainStep(s, d, q);
    assert s' == expected.session;
    assert q' == expected.queues;
    assert d' == expected.disk;
  }

  /** A restart without a stop orphans the first file with everything written to
      it: after a start, a drain iteration and a second start at another instant,
      the first file still holds the drained packets, and only the second path
      comes back from the next stop. */
  lemma RestartOrphansRecordedBytes(s: Session, d: Disk, outDir: string,
                                    t1: DateTime, q: Queues, t2: DateTime)
    requires ValidDateTime(t1) && ValidDateTime(t2) && t1 != t2
    ensures var first := StartRecording(s, d, outDir, t1);
            var step := DrainStep(first.session, first.disk, q);
            var second := StartRecording(step.session, step.disk, outDir, t2);
            && first.path != second.path
            && StopRecording(second.session).path == Some(second.path)
            && first.path in second.disk
            && second.disk[first.path] == Concat(q.rec)
  {
    var first := StartRecording(s, d, outDir, t1);
    RecordingNameInjective(s.camLabel, t1, s.camLabel, t2);
    assert first.disk[first.path] + Concat(q.rec) == Concat(q.rec);
  }

  /** A restart within the same second reuses the name: the second start
      truncates the file the first one opened, and the next stop returns that
      same path, now holding nothing of what was drained before the restart. */
  lemma RestartSameSecondTruncates(s: Session, d: Disk, outDir: string, t: DateTime, q: Queues)
    requires ValidDateTime(t)
    ensures var first := StartRecording(s, d, outDir, t);
            var step := DrainStep(first.session, first.disk, q);
            var second := StartRecording(step.session, step.disk, outDir, t);
            && second.path == first.path
            && second.disk[first.path] == []
            && StopRecording(second.session).path == Some(first.path)
  {
  }

  /** Packets the device hands to each queue between two iterations. */
  datatype Arrivals = Arrivals(preview: seq<Bytes>, rec: seq<Bytes>)

  /** Neither queue is over its `maxSize`. */
  predicate Fits(q: Queues)
  {
    |q.preview| <= PreviewCapacity && |q.rec| <= RecordingCapacity
  }

  /** Packets arrive (a full queue drops its oldest), then one iteration runs.
      After every iteration the recording queue is empty, so the next iteration's
      arrivals lose nothing unless more than `RecordingCapacity` of them come. */
  function Tick(st: Step, a: Arrivals): (r: Step)
    requires Fits(st.queues)
    ensures Fits(r.queues) && r.queues.rec == []
    ensures r.session == st.session.(preview := r.session.preview)
    ensures r.disk.Keys == st.disk.Keys
    ensures !IsRecording(st.session) ==> r.disk == st.disk
    ensures IsRecording(st.session) && st.session.file.Some? && st.session.file.value in st.disk
            && st.queues.rec == [] ==>
              var p := st.session.file.value;
              r.disk == st.disk[p := st.disk[p] + Concat(Newest(a.rec, RecordingCapacity))]
  {
    var q := Queues(PushAll(st.queues.preview, a.preview, PreviewCapacity),
                    PushAll(st.queues.rec, a.rec, RecordingCapacity));
    assert st.queues.rec == [] ==> st.queues.rec + a.rec == a.rec;
    DrainStep(st.session, st.disk, q)
  }

  /** A run of ticks. */
  function Run(st: Step, arrivals: seq<Arrivals>): (r: Step)
    requires Fits(st.queues)
    ensures Fits(r.queues)
    decreases |arrivals|
  {
    if arrivals == [] then st else Run(Tick(st, arrivals[0]), arrivals[1..])
  }

  /** Every recording packet the device emitted, in emission order. */
  function RecStream(arrivals: seq<Arrivals>): seq<Bytes>
  {
    if arrivals == [] then [] else arrivals[0].rec + RecStream(arrivals[1..])
  }

  /** Two writes to the same file amount to one write of both, in order. */
  lemma AppendTwice(d: Disk, p: Path, x: Bytes, y: Bytes)
    requires p in d
    ensures d[p := d[p] + x][p := d[p] + x + y] == d[p := d[p] + (x + y)]
  {
    assert d[p] + x + y == d[p] + (x + y);
  }

  /** While recording, and as long as no more than `RecordingCapacity` packets
      arrive between two iterations, the open file receives every recording packet
      exactly once and in order; no other file changes. */
  lemma {:induction false} RecordingIsLossless(st: Step, arrivals: seq<Arrivals>)
    requires Fits(st.queues) && st.queues.rec == []
    requires IsRecording(st.session) && st.session.file.Some? && st.session.file.value in st.disk
    requires forall i :: 0 <= i < |arrivals| ==> |arrivals[i].rec| <= RecordingCapacity
    ensures var p := st.session.file.value;
            Run(st, arrivals).disk == st.disk[p := st.disk[p] + Concat(RecStream(arrivals))]
    decreases |arrivals|
  {
    var p := st.session.file.value;
    if arrivals == [] {
      assert st.disk[p] + [] == st.disk[p];
    } else {
      var a := arrivals[0];
      var next := Tick(st, a);
      assert Run(st, arrivals) == Run(next, arrivals[1..]);
      assert Newest(a.rec, RecordingCapacity) == a.rec;
      assert next.disk == st.disk[p := st.disk[p] + Concat(a.rec)];
      var rest := arrivals[1..];
      RecordingIsLossless(next, rest);
      var before := st.disk[p];
      var x := Concat(a.rec);
      var y := Concat(RecStream(rest));
      assert RecStream(arrivals) == a.rec + RecStream(rest);
      ConcatSplit(a.rec, RecStream(rest));
      assert Concat(RecStream(arrivals)) == x + y;
      assert next.disk[p] == before + x;
      assert Run(next, rest).disk == st.disk[p := before + x][p := before + x + y];
      AppendTwice(st.disk, p, x, y);
    }
  }

  /** While not recording, every iteration still empties the recording queue, and
      the disk never changes. */
  lemma {:induction false} IdleWritesNothing(st: Step, arrivals: seq<Arrivals>)
    requires Fits(st.queues) && !IsRecording(st.session)
    ensures Run(st, arrivals).disk == st.disk
    ensures arrivals != [] ==> Run(st, arrivals).queues.rec == []
    decreases |arrivals|
  {
    if arrivals != [] {
      var next := Tick(st, arrivals[0]);
      IdleWritesNothing(next, arrivals[1..]);
    }
  }

  /** Every preview packet the device emitted, in emission order. */
  function PreviewStream(arrivals: seq<Arrivals>): seq<Bytes>
  {
    if arrivals == [] then [] else arrivals[0].preview + PreviewStream(arrivals[1..])
  }

  /** Every element of `xs` occurs in `ys`. */
  predicate Within(xs: seq<Bytes>, ys: seq<Bytes>)
  {
    forall x :: x in xs ==> x in ys
  }

  /** The preview queue after a tick holds only packets that were queued or arrived. */
  lemma TickPreviewWithin(st: Step, a: Arrivals)
    requires Fits(st.queues)
    ensures var r := Tick(st, a);
            && Within(r.queues.preview, st.queues.preview + a.preview)
            && (LatestJpeg(r.session) == LatestJpeg(st.session)
                || (LatestJpeg(r.session).Some? && LatestJpeg(r.session).value in st.queues.preview + a.preview))
  {
    var all := st.queues.preview + a.preview;
    var pushed := PushAll(st.queues.preview, a.preview, PreviewCapacity);
    assert Within(pushed, all);
    var r := Tick(st, a);
    assert pushed != [] ==> [pushed[0]] + r.queues.preview == pushed;
    assert pushed != [] ==> pushed[0] in all;
    assert Within(r.queues.preview, pushed);
  }

  lemma WithinTrans(xs: seq<Bytes>, ys: seq<Bytes>, zs: seq<Bytes>)
    requires Within(xs, ys) && Within(ys, zs)
    ensures Within(xs, zs)
  {
  }

  /** Packets drawn from `pre + mid`, followed by later arrivals `zs`, are all
      drawn from `pre + (mid + zs)`. */
  lemma WithinAppend(xs: seq<Bytes>, pre: seq<Bytes>, mid: seq<Bytes>, zs: seq<Bytes>)
    requires Within(xs, pre + mid)
    ensures Within(xs + zs, pre + (mid + zs))
  {
    forall x | x in xs + zs
      ensures x in pre + (mid + zs)
    {
      if x in xs {
        assert x in pre + mid;
        if x in pre {
          assert x in pre + (mid + zs);
        } else {
          assert x in mid + zs;
        }
      } else {
        assert x in mid + zs;
      }
    }
  }

  /** The cached frame is never invented: after a run it is the frame cached
      before, or a packet that was queued or arrived; with nothing queued or
      arriving, a session that had no frame still has none. */
  lemma {:induction false} PreviewComesFromDevice(st: Step, arrivals: seq<Arrivals>)
    requires Fits(st.queues)
    ensures var f := LatestJpeg(Run(st, arrivals).session);
            f == LatestJpeg(st.session)
            || (f.Some? && f.value in st.queues.preview + PreviewStream(arrivals))
    ensures Within(Run(st, arrivals).queues.preview, st.queues.preview + PreviewStream(arrivals))
    decreases |arrivals|
  {
    if arrivals == [] {
      assert st.queues.preview + [] == st.queues.preview;
    } else {
      var a := arrivals[0];
      var rest := arrivals[1..];
      var next := Tick(st, a);
      var last := Run(next, rest);
      assert Run(st, arrivals) == last;
      TickPreviewWithin(st, a);
      PreviewComesFromDevice(next, rest);
      var head := st.queues.preview + a.preview;
      var src := st.queues.preview + PreviewStream(arrivals);
      assert PreviewStream(arrivals) == a.preview + PreviewStream(rest);
      WithinAppend(next.queues.preview, st.queues.preview, a.preview, PreviewStream(rest));
      WithinTrans(last.queues.preview, next.queues.preview + PreviewStream(rest), src);
      var f := LatestJpeg(last.session);
      if f != LatestJpeg(st.session) {
        if f == LatestJpeg(next.session) {
          assert f.value in head;
          assert f.value in src;
        } else {
          assert f.value in next.queues.preview + PreviewStream(rest);
          assert f.value in src;
        }
      }
    }
  }
}

=== FILE: clock.dfy ===
/** Calendar values and the two textual renderings the camera server uses:
    `datetime.strftime("%Y%m%d_%H%M%S")` for recording file names and
    `str(date)` (ISO 8601, `YYYY-MM-DD`) for the per-day output directory. */
module Clock {

  datatype Date = Date(year: int, month: int, day: int)

  datatype DateTime = DateTime(date: Date, hour: int, minute: int, second: int)

  predicate IsLeapYear(y: int)
  {
    y % 4 == 0 && (y % 100 != 0 || y % 400 == 0)
  }

  function DaysInMonth(y: int, m: int): int
    requires 1 <= m <= 12
  {
    if m == 2 then (if IsLeapYear(y) then 29 else 28)
    else if m == 4 || m == 6 || m == 9 || m == 11 then 30
    else 31
  }

  /** The range Python's `date` accepts (MINYEAR = 1, MAXYEAR = 9999). */
  predicate ValidDate(d: Date)
  {
    && 1 <= d.year <= 9999
    && 1 <= d.month <= 12
    && 1 <= d.day <= DaysInMonth(d.year, d.month)
  }

  predicate ValidDateTime(t: DateTime)
  {
    && ValidDate(t.date)
    && 0 <= t.hour < 24
    && 0 <= t.minute < 60
    && 0 <= t.second < 60
  }

  predicate IsDigit(c: char)
  {
    '0' <= c <= '9'
  }

  predicate AllDigits(s: string)
  {
    forall i :: 0 <= i < |s| ==> IsDigit(s[i])
  }

  function Pow10(n: nat): nat
  {
    if n == 0 then 1 else 10 * Pow10(n - 1)
  }

  function DigitChar(d: int): char
    requires 0 <= d < 10
  {
    ('0' as int + d) as char
  }

  function DigitValue(c: char): int
    requires IsDigit(c)
  {
    c as int - '0' as int
  }

  /** `"%0<width>d" % n`: the decimal numeral of `n`, zero-padded on the left to
      exactly `width` characters. */
  function Digits(n: nat, width: nat): (s: string)
    requires n < Pow10(width)
    ensures |s| == width
    ensures AllDigits(s)
  {
    if width == 0 then ""
    else
      assert n / 10 < Pow10(width - 1);
      Digits(n / 10, width - 1) + [DigitChar(n % 10)]
  }

  /** `int(s)` for a string of decimal digits. */
  function Value(s: string): nat
    requires AllDigits(s)
  {
    if s == [] then 0 else 10 * Value(s[..|s| - 1]) + DigitValue(s[|s| - 1])
  }

  /** Reading back a zero-padded numeral gives the number that was printed. */
  lemma {:induction false} DigitsRoundTrip(n: nat, width: nat)
    requires n < Pow10(width)
    ensures Value(Digits(n, width)) == n
  {
    if width > 0 {
      var s := Digits(n, width);
      assert n / 10 < Pow10(width - 1);
      assert s[..|s| - 1] == Digits(n / 10, width - 1);
      DigitsRoundTrip(n / 10, width - 1);
    }
  }

  /** The `%Y%m%d_%H%M%S` rendering of a time stamp (15 characters). */
  function Stamp(t: DateTime): (s: string)
    requires ValidDateTime(t)
    ensures |s| == 15
    ensures StampShape(s)
  {
    Digits(t.date.year, 4) + Digits(t.date.month, 2) + Digits(t.date.day, 2) + "_"
    + Digits(t.hour, 2) + Digits(t.minute, 2) + Digits(t.second, 2)
  }

  /** Eight digits, an underscore, six digits. */
  predicate StampShape(s: string)
  {
    && |s| == 15
    && AllDigits(s[..8])
    && s[8] == '_'
    && AllDigits(s[9..])
  }

  /** Reads a `%Y%m%d_%H%M%S` stamp back into its fields. */
  function ParseStamp(s: string): DateTime
    requires StampShape(s)
  {
    assert AllDigits(s[..4]) && AllDigits(s[4..6]) && AllDigits(s[6..8]) by {
      assert s[..4] == s[..8][..4] && s[4..6] == s[..8][4..6] && s[6..8] == s[..8][6..8];
    }
    assert AllDigits(s[9..11]) && AllDigits(s[11..13]) && AllDigits(s[13..]) by {
      assert s[9..11] == s[9..][..2] && s[11..13] == s[9..][2..4] && s[13..] == s[9..][4..];
    }
    DateTime(Date(Value(s[..4]), Value(s[4..6]), Value(s[6..8])),
             Value(s[9..11]), Value(s[11..13]), Value(s[13..]))
  }

  /** The stamp loses nothing: parsing it gives back the time it was printed from. */
  lemma StampRoundTrip(t: DateTime)
    requires ValidDateTime(t)
    ensures ParseStamp(Stamp(t)) == t
  {
    var s := Stamp(t);
    assert s[..4] == Digits(t.date.year, 4);
    assert s[4..6] == Digits(t.date.month, 2);
    assert s[6..8] == Digits(t.date.day, 2);
    assert s[9..11] == Digits(t.hour, 2);
    assert s[11..13] == Digits(t.minute, 2);
    assert s[13..] == Digits(t.second, 2);
    DigitsRoundTrip(t.date.year, 4);
    DigitsRoundTrip(t.date.month, 2);
    DigitsRoundTrip(t.date.day, 2);
    DigitsRoundTrip(t.hour, 2);
    DigitsRoundTrip(t.minute, 2);
    DigitsRoundTrip(t.second, 2);
  }

  /** Two distinct instants always get distinct stamps. */
  lemma StampInjective(a: DateTime, b: DateTime)
    requires ValidDateTime(a) && ValidDateTime(b)
    ensures Stamp(a) == Stamp(b) ==> a == b
  {
    StampRoundTrip(a);
    StampRoundTrip(b);
  }

  /** `str(date)`: `YYYY-MM-DD`. */
  function IsoDate(d: Date): (s: string)
    requires ValidDate(d)
    ensures |s| == 10 && s[4] == '-' && s[7] == '-'
    ensures '/' !in s
  {
    var s := Digits(d.year, 4) + "-" + Digits(d.month, 2) + "-" + Digits(d.day, 2);
    assert forall i :: 0 <= i < |s| && i != 4 && i != 7 ==> IsDigit(s[i]);
    s
  }

  /** Reads an ISO date back into its fields. */
  function ParseIsoDate(s: string): Date
    requires |s| == 10 && AllDigits(s[..4]) && AllDigits(s[5..7]) && AllDigits(s[8..])
  {
    Date(Value(s[..4]), Value(s[5..7]), Value(s[8..]))
  }

  /** The ISO date reads back as the date it was printed from; so different days
      get different output directories. */
  lemma IsoDateRoundTrip(d: Date)
    requires ValidDate(d)
    ensures var s := IsoDate(d);
            AllDigits(s[..4]) && AllDigits(s[5..7]) && AllDigits(s[8..]) && ParseIsoDate(s) == d
  {
    var s := IsoDate(d);
    assert s[..4] == Digits(d.year, 4);
    assert s[5..7] == Digits(d.month, 2);
    assert s[8..] == Digits(d.day, 2);
    DigitsRoundTrip(d.year, 4);
    DigitsRoundTrip(d.month, 2);
    DigitsRoundTrip(d.day, 2);
  }
}

=== FILE: device.dfy ===
/** One camera's session (`DevicePipelines`): the cached preview frame, the
    recording flag and the raw file currently open for recording. The capture
    thread and the hardware are modelled separately (modules Capture and
    Reconnect); here are the caller-facing operations. */
module Device {
  import opened Basics
  import opened Clock
  import opened Files
  import opened Naming

  datatype Session = Session(
    mxid: string,              // serial the session was registered with; never passed to the device
    camLabel: string,          // e.g. "narrow" or "wide"
    preview: Option<Bytes>,    // `_preview_jpeg_latest`
    recording: bool,           // `_recording`
    file: Option<Path>         // path of `_h264_file` while it is open
  )

  /** The recording flag and the open file are set and cleared together. */
  predicate Inv(s: Session)
  {
    s.recording <==> s.file.Some?
  }

  /** The open recording file exists on disk. */
  predicate FileOnDisk(s: Session, d: Disk)
  {
    s.file.Some? ==> s.file.value in d
  }

  /** `DevicePipelines(mxid, label)`. The capture thread is created but not started. */
  function New(mxid: string, cam: string): Session
  {
    Session(mxid, cam, None, false, None)
  }

  /** `latest_jpeg()`. */
  function LatestJpeg(s: Session): Option<Bytes>
  {
    s.preview
  }

  /** `is_recording()`: in a consistent session, whether a file is open. */
  function IsRecording(s: Session): (r: bool)
    ensures Inv(s) ==> (r <==> s.file.Some?)
  {
    s.recording
  }

  datatype Started = Started(session: Session, disk: Disk, path: Path)

  /** `start_recording(out_dir)` at wall-clock time `now`: opens (creating or
      truncating) `out_dir/{label}_{now}.h264` and returns its path. A file that
      was already open is replaced without being closed. When the second start
      falls in another second, that file stays on disk with what was written to
      it and no later call returns its path; within the same second the name is
      the same, so `"wb"` truncates that file and the next stop returns its path. */
  function StartRecording(s: Session, d: Disk, outDir: string, now: DateTime): (r: Started)
    requires ValidDateTime(now)
    ensures r.path.dir == outDir && IsRawNameOf(s.camLabel, r.path.name)
    ensures LabelOf(r.path.name) == s.camLabel && StampOf(r.path.name) == now
    ensures r.path == RecordingPath(outDir, s.camLabel, now)
    ensures Suffix(r.path.name) == RawExt
    ensures IsRecording(r.session) && r.session.file == Some(r.path) && Inv(r.session)
    ensures r.session.mxid == s.mxid && r.session.camLabel == s.camLabel
    ensures LatestJpeg(r.session) == LatestJpeg(s)
    ensures r.path in r.disk && r.disk[r.path] == []
    ensures forall p :: p != r.path ==> (p in r.disk <==> p in d)
    ensures forall p :: p != r.path && p in d ==> r.disk[p] == d[p]
  {
    var path := RecordingPath(outDir, s.camLabel, now);
    RecordingNameRoundTrip(s.camLabel, now);
    Started(s.(file := Some(path), recording := true), Create(d, path), path)
  }

  datatype Stopped = Stopped(session: Session, path: Option<Path>)

  /** `stop_recording()`: clears the flag, closes the open file and returns its
      path, or `None` when no file was open. Closing leaves the disk as it is. */
  function StopRecording(s: Session): (r: Stopped)
    ensures !IsRecording(r.session) && r.session.file == None && Inv(r.session)
    ensures r.path.Some? <==> s.file.Some?
    ensures r.path.Some? ==> r.path == s.file
    ensures r.session.mxid == s.mxid && r.session.camLabel == s.camLabel
    ensures LatestJpeg(r.session) == LatestJpeg(s)
  {
    Stopped(s.(recording := false, file := None), s.file)
  }

  /** A new session is idle: not recording, no frame cached, and stopping it
      returns nothing. */
  lemma NewSessionIsIdle(mxid: string, cam: string)
    ensures var s := New(mxid, cam);
            && Inv(s)
            && !IsRecording(s)
            && LatestJpeg(s) == None
            && StopRecording(s).path == None
            && s.mxid == mxid && s.camLabel == cam
  {
  }

  /** Stopping returns the path that starting returned, and only then. */
  lemma StartThenStop(s: Session, d: Disk, outDir: string, now: DateTime)
    requires ValidDateTime(now)
    ensures var st := StartRecording(s, d, outDir, now);
            StopRecording(st.session).path == Some(st.path)
  {
  }

  /** A second consecutive stop returns `None` and changes nothing. */
  lemma StopTwice(s: Session)
    ensures var once := StopRecording(s).session;
            StopRecording(once).path == None && StopRecording(once).session == once
  {
  }

  /** Recording control never touches the cached frame: `latest_jpeg()` reports
      the same frame before a start, after it, and after the following stop. */
  lemma RecordingControlKeepsFrame(s: Session, d: Disk, outDir: string, now: DateTime)
    requires ValidDateTime(now)
    ensures var started := StartRecording(s, d, outDir, now).session;
            && LatestJpeg(started) == LatestJpeg(s)
            && LatestJpeg(StopRecording(started).session) == LatestJpeg(s)
            && LatestJpeg(StopRecording(s).session) == LatestJpeg(s)
  {
  }

  /** Starting twice without a stop: the stop returns only the newest path, and
      the first file, when its name differs, remains on disk untouched. */
  lemma RestartOrphansFirstFile(s: Session, d: Disk, outDir: string, t1: DateTime, t2: DateTime)
    requires ValidDateTime(t1) && ValidDateTime(t2) && t1 != t2
    ensures var first := StartRecording(s, d, outDir, t1);
            var second := StartRecording(first.session, first.disk, outDir, t2);
            && first.path != second.path
            && StopRecording(second.session).path == Some(second.path)
            && first.path in second.disk
            && second.disk[first.path] == []
  {
    RecordingNameInjective(s.camLabel, t1, s.camLabel, t2);
  }
}

=== FILE: files.dfy ===
/** Paths as `pathlib` sees them (a parent directory and a final name) and the
    local file system as a map from path to contents. */
module Files {
  import opened Basics

  datatype Path = Path(dir: string, name: string)

  /** The files on local disk. A path that is absent is a file that does not exist. */
  type Disk = map<Path, Bytes>

  /** `name.rfind('.')`: the index of the last '.', or -1 when there is none. */
  function LastDot(s: string): (i: int)
    ensures -1 <= i < |s|
    ensures i >= 0 ==> s[i] == '.'
    ensures forall j :: i < j < |s| ==> s[j] != '.'
  {
    if s == [] then -1
    else if s[|s| - 1] == '.' then |s| - 1
    else LastDot(s[..|s| - 1])
  }

  /** `PurePath.suffix`: the name from its last '.' on, or "" when that '.' leads
      or ends the name (".bashrc", "a."), or when there is no '.'. */
  function Suffix(name: string): string
  {
    var i := LastDot(name);
    if 0 < i < |name| - 1 then name[i..] else ""
  }

  /** `PurePath.stem`: the name without its suffix. */
  function Stem(name: string): string
  {
    name[..|name| - |Suffix(name)|]
  }

  /** What `with_suffix` accepts: a '.' followed by at least one character, no separator. */
  predicate SuffixArgument(x: string)
  {
    |x| >= 2 && x[0] == '.' && '/' !in x
  }

  /** A suffix with exactly one '.', such as ".mp4". */
  predicate SingleExtension(x: string)
  {
    SuffixArgument(x) && forall k :: 1 <= k < |x| ==> x[k] != '.'
  }

  /** `PurePath.with_suffix(x)`: replaces the suffix of the name, or appends `x`
      when the name has none. `pathlib` raises `ValueError` for an empty name or a
      malformed argument; the camera server never passes either. */
  function WithSuffix(p: Path, x: string): (q: Path)
    requires p.name != "" && SuffixArgument(x)
    ensures q.dir == p.dir
    ensures |q.name| > |x| && q.name[|q.name| - |x|..] == x
  {
    var current := Suffix(p.name);
    if current == "" then Path(p.dir, p.name + x)
    else Path(p.dir, p.name[..|p.name| - |current|] + x)
  }

  /** Replacing the suffix by a single extension keeps the stem, and the new
      path's suffix is exactly the one asked for. */
  lemma WithSuffixKeepsStem(p: Path, x: string)
    requires p.name != "" && SingleExtension(x)
    ensures Stem(WithSuffix(p, x).name) == Stem(p.name)
    ensures Suffix(WithSuffix(p, x).name) == x
  {
    var stem := Stem(p.name);
    var n := WithSuffix(p, x).name;
    assert n == stem + x;
    assert |stem| > 0 by {
      var i := LastDot(p.name);
      if !(0 < i < |p.name| - 1) {
        assert Suffix(p.name) == "";
      }
    }
    assert n[|stem|] == '.';
    forall j | |stem| < j < |n|
      ensures n[j] != '.'
    {
      assert n[j] == x[j - |stem|];
    }
    var i := LastDot(n);
    assert i == |stem|;
    assert Suffix(n) == x;
  }

  /** `open(p, "wb")`: the file exists afterwards and is empty. */
  function Create(d: Disk, p: Path): Disk
  {
    d[p := []]
  }

  /** `f.write(b)` on a file opened at `p`. A file that was unlinked while open
      keeps its handle, but no path shows the bytes. */
  function Append(d: Disk, p: Path, b: Bytes): Disk
  {
    if p in d then d[p := d[p] + b] else d
  }

  /** `p.unlink(missing_ok=True)`. */
  function Unlink(d: Disk, p: Path): Disk
  {
    d - {p}
  }
}

=== FILE: manager.dfy ===
/** `CameraManager`: the registry of camera sessions keyed by label in insertion
    order, the currently selected label, and the operations the web layer calls
    on the selected camera. Stopping a recording remuxes the raw file to MP4;
    the remux tool's result is a parameter. */
module CameraManager {
  import opened Basics
  import opened Clock
  import opened Files
  import opened Naming
  import opened Device
  import Capture

  /** The root of the per-day output directories. */
  const VideoRoot := "/output/videos/"

  /** `Path(f"/output/videos/{date.today()}")`. */
  function OutputDir(today: Date): string
    requires ValidDate(today)
  {
    VideoRoot + IsoDate(today)
  }

  /** The constructor's `mapping` (label -> mxid) as the pairs of a dict, in
      insertion order; a dict holds each label once. */
  predicate DistinctLabels(mapping: seq<(string, string)>)
  {
    forall i, j :: 0 <= i < j < |mapping| ==> mapping[i].0 != mapping[j].0
  }

  predicate Distinct(labels: seq<string>)
  {
    forall i, j :: 0 <= i < j < |labels| ==> labels[i] != labels[j]
  }

  datatype Manager = Manager(
    labels: seq<string>,            // `list(self.devices.keys())`
    devices: map<string, Session>,  // `self.devices`
    current: string,                // `self.current_label`
    outDir: string                  // `self.out_dir`
  )

  /** A session's open file lies in the manager's output directory and carries
      the session's own label. */
  predicate OwnsFile(s: Session, dir: string)
  {
    s.file.Some? ==> s.file.value.dir == dir && IsRawNameOf(s.camLabel, s.file.value.name)
  }

  /** What every reachable manager satisfies. */
  predicate Wf(m: Manager)
  {
    && |m.labels| > 0
    && Distinct(m.labels)
    && (forall l :: l in m.labels ==> l in m.devices)
    && (forall l :: l in m.devices ==> l in m.labels)
    && m.current in m.devices
    && (forall l :: l in m.devices ==>
          m.devices[l].camLabel == l && Inv(m.devices[l]) && OwnsFile(m.devices[l], m.outDir))
  }

  /** Every open recording file exists on disk. */
  predicate FilesOnDisk(m: Manager, d: Disk)
  {
    forall l :: l in m.devices ==> FileOnDisk(m.devices[l], d)
  }

  /** `list(mapping.keys())`. */
  function Labels(mapping: seq<(string, string)>): (r: seq<string>)
    ensures |r| == |mapping|
    ensures forall i :: 0 <= i < |r| ==> r[i] == mapping[i].0
    ensures DistinctLabels(mapping) ==> Distinct(r)
  {
    seq(|mapping|, i requires 0 <= i < |mapping| => mapping[i].0)
  }

  /** `self.devices[label] = DevicePipelines(mxid=mxid, label=label)` for each pair. */
  function Register(mapping: seq<(string, string)>): (r: map<string, Session>)
    requires DistinctLabels(mapping)
    ensures forall l :: l in r <==> l in Labels(mapping)
    ensures forall i :: 0 <= i < |mapping| ==> r[mapping[i].0] == Device.New(mapping[i].1, mapping[i].0)
    ensures forall l :: l in r ==> r[l].camLabel == l && !r[l].recording && r[l].file.None?
  {
    var ls := Labels(mapping);
    map i | 0 <= i < |mapping| :: ls[i] := Device.New(mapping[i].1, ls[i])
  }

  /** `CameraManager(mapping)` on the day `today`. An empty mapping makes
      `list(mapping.keys())[0]` raise `IndexError`: the result is `None`. */
  function New(mapping: seq<(string, string)>, today: Date): (r: Option<Manager>)
    requires DistinctLabels(mapping) && ValidDate(today)
    ensures r.None? <==> mapping == []
    ensures r.Some? ==>
              && Wf(r.value)
              && r.value.current == mapping[0].0
              && r.value.labels == Labels(mapping)
              && r.value.outDir == OutputDir(today)
              && (forall i :: 0 <= i < |mapping| ==>
                    r.value.devices[mapping[i].0] == Device.New(mapping[i].1, mapping[i].0))
              && (forall d: Disk :: FilesOnDisk(r.value, d))
  {
    if mapping == [] then None
    else
      var m := Manager(Labels(mapping), Register(mapping), mapping[0].0, OutputDir(today));
      assert Labels(mapping)[0] == mapping[0].0;
      Some(m)
  }

  /** `labels.index(x)`: the position of the first occurrence of `x`. */
  function IndexOf(labels: seq<string>, x: string): (i: nat)
    requires x in labels
    ensures i < |labels| && labels[i] == x
    ensures forall j :: 0 <= j < i ==> labels[j] != x
  {
    IndexFrom(labels, x, 0)
  }

  /** The search of `labels.index(x)`, having passed the first `from` entries. */
  function IndexFrom(labels: seq<string>, x: string, from: nat): (i: nat)
    requires x in labels && from <= |labels|
    requires forall j :: 0 <= j < from ==> labels[j] != x
    ensures from <= i < |labels| && labels[i] == x
    ensures forall j :: 0 <= j < i ==> labels[j] != x
    decreases |labels| - from
  {
    if from < |labels| && labels[from] == x then from else IndexFrom(labels, x, from + 1)
  }

  /** In a list without repeats the position of an element is where it sits. */
  lemma IndexOfDistinct(labels: seq<string>, j: nat)
    requires Distinct(labels) && j < |labels|
    ensures IndexOf(labels, labels[j]) == j
  {
  }

  /** `(idx + 1) % len(labels)` moves one place and wraps after the last. */
  lemma NextIndex(idx: int, n: int)
    requires 0 <= idx < n
    ensures (idx + 1) % n == if idx + 1 < n then idx + 1 else 0
  {
  }

  /** The label registered after `cur`, wrapping to the first after the last:
      `labels[(labels.index(cur) + 1) % len(labels)]`. */
  function NextLabel(labels: seq<string>, cur: string): (r: string)
    requires cur in labels
    ensures r in labels
    ensures var i := IndexOf(labels, cur);
            r == if i + 1 < |labels| then labels[i + 1] else labels[0]
  {
    var idx := IndexOf(labels, cur);
    NextIndex(idx, |labels|);
    labels[(idx + 1) % |labels|]
  }

  /** With two or more distinct labels the next label is a different one. */
  lemma NextLabelMoves(labels: seq<string>, cur: string)
    requires Distinct(labels) && cur in labels
    ensures |labels| >= 2 ==> NextLabel(labels, cur) != cur
  {
    var i := IndexOf(labels, cur);
    if |labels| >= 2 && i + 1 < |labels| {
      assert labels[i] != labels[i + 1];
    } else if |labels| >= 2 {
      assert labels[0] != labels[i];
    }
  }

  /** The label reached after `k` steps of `NextLabel`. */
  function Advance(labels: seq<string>, cur: string, k: nat): (r: string)
    requires cur in labels
    ensures r in labels
  {
    if k == 0 then cur else NextLabel(labels, Advance(labels, cur, k - 1))
  }

  /** The position `k` places after `i` in a ring of `n`, for at most one round. */
  function RingPlus(i: nat, k: nat, n: nat): nat
  {
    if i + k < n then i + k else i + k - n
  }

  /** From the label at position `i`, the next label is the one at the following
      position of the ring. */
  lemma NextLabelAt(labels: seq<string>, i: nat)
    requires Distinct(labels) && i < |labels|
    ensures NextLabel(labels, labels[i]) == labels[RingPlus(i, 1, |labels|)]
  {
    IndexOfDistinct(labels, i);
  }

  /** Up to one full round, `k` steps move `k` places along the list, wrapping
      past the last label to the first. */
  lemma {:induction false} AdvanceAt(labels: seq<string>, i: nat, k: nat)
    requires Distinct(labels) && i < |labels| && k <= |labels|
    ensures Advance(labels, labels[i], k) == labels[RingPlus(i, k, |labels|)]
  {
    if k > 0 {
      AdvanceAt(labels, i, k - 1);
      var p := RingPlus(i, k - 1, |labels|);
      NextLabelAt(labels, p);
      assert RingPlus(p, 1, |labels|) == RingPlus(i, k, |labels|);
    }
  }

  datatype Toggled = Toggled(manager: Manager, cam: string)

  /** `toggle()`: selects and returns the label registered after the current one,
      or the first label when the current one is the last. */
  function Toggle(m: Manager): (r: Toggled)
    requires Wf(m)
    ensures Wf(r.manager) && r.manager == m.(current := r.cam)
    ensures r.cam in m.devices
    ensures var i := IndexOf(m.labels, m.current);
            r.cam == if i + 1 < |m.labels| then m.labels[i + 1] else m.labels[0]
    ensures |m.labels| >= 2 ==> r.cam != m.current
  {
    var next := NextLabel(m.labels, m.current);
    NextLabelMoves(m.labels, m.current);
    Toggled(m.(current := next), next)
  }

  /** `k` toggles in a row. */
  function ToggleN(m: Manager, k: nat): (r: Manager)
    requires Wf(m)
    ensures Wf(r) && r.labels == m.labels && r.devices == m.devices && r.outDir == m.outDir
    ensures r.current == Advance(m.labels, m.current, k)
  {
    if k == 0 then m else Toggle(ToggleN(m, k - 1)).manager
  }

  /** As many toggles as there are cameras bring the selection back to where it
      started. */
  lemma ToggleRoundTrip(m: Manager)
    requires Wf(m)
    ensures ToggleN(m, |m.labels|) == m
  {
    var i := IndexOf(m.labels, m.current);
    AdvanceAt(m.labels, i, |m.labels|);
  }

  /** Fewer toggles than there are cameras never come back to the starting camera. */
  lemma ToggleNoEarlyReturn(m: Manager, k: nat)
    requires Wf(m) && 0 < k < |m.labels|
    ensures ToggleN(m, k).current != m.current
  {
    var i := IndexOf(m.labels, m.current);
    AdvanceAt(m.labels, i, k);
    var p := RingPlus(i, k, |m.labels|);
    if p < i {
      assert m.labels[p] != m.labels[i];
    } else {
      assert m.labels[i] != m.labels[p];
    }
  }

  /** Within one round of toggles every registered camera is selected. */
  lemma ToggleVisitsAll(m: Manager, j: nat)
    requires Wf(m) && j < |m.labels|
    ensures exists k :: 0 <= k < |m.labels| && ToggleN(m, k).current == m.labels[j]
  {
    var i := IndexOf(m.labels, m.current);
    var k := if j >= i then j - i else j - i + |m.labels|;
    AdvanceAt(m.labels, i, k);
    assert RingPlus(i, k, |m.labels|) == j;
    assert ToggleN(m, k).current == m.labels[j];
  }

  /** `set_current(label)`: selects a registered label; an unknown label changes nothing. */
  function SetCurrent(m: Manager, cam: string): (r: Manager)
    requires Wf(m)
    ensures Wf(r)
    ensures cam in m.labels ==> r.current == cam
    ensures cam !in m.labels ==> r == m
    ensures r == m.(current := r.current)
  {
    if cam in m.devices then m.(current := cam) else m
  }

  /** `latest_jpeg()` of the selected camera. */
  function LatestJpeg(m: Manager): Option<Bytes>
    requires Wf(m)
  {
    Device.LatestJpeg(m.devices[m.current])
  }

  /** `is_recording()` of the selected camera: whether it has a file open. */
  function IsRecording(m: Manager): (r: bool)
    requires Wf(m)
    ensures r <==> m.devices[m.current].file.Some?
  {
    Device.IsRecording(m.devices[m.current])
  }

  /** Preview and recording state follow the selection: after selecting a
      registered camera, the manager reports that camera's frame and flag, and
      after an unknown label it reports what it reported before. */
  lemma SelectionRoutesQueries(m: Manager, cam: string)
    requires Wf(m)
    ensures var r := SetCurrent(m, cam);
            && (cam in m.labels ==> LatestJpeg(r) == m.devices[cam].preview
                                    && IsRecording(r) == m.devices[cam].recording)
            && (cam !in m.labels ==> LatestJpeg(r) == LatestJpeg(m) && IsRecording(r) == IsRecording(m))
  {
  }

  /** The manager with the selected camera's session replaced. */
  function WithActive(m: Manager, s: Session): Manager
  {
    m.(devices := m.devices[m.current := s])
  }

  /** Replacing the selected session by one that keeps the invariants keeps the
      manager well formed, and leaves the other open files on disk. */
  lemma WithActiveWf(m: Manager, s: Session, d: Disk, d': Disk)
    requires Wf(m) && s.camLabel == m.current && Inv(s) && OwnsFile(s, m.outDir)
    ensures Wf(WithActive(m, s))
    ensures FilesOnDisk(m, d) && FileOnDisk(s, d')
            && (forall l :: l in m.devices && l != m.current && m.devices[l].file.Some?
                  ==> m.devices[l].file.value in d')
            ==> FilesOnDisk(WithActive(m, s), d')
  {
  }

  /** A disk that keeps every path of `d` still holds the other cameras' open files. */
  lemma OtherFilesKept(m: Manager, d: Disk, d': Disk)
    requires d.Keys <= d'.Keys
    ensures FilesOnDisk(m, d) ==>
              forall l :: l in m.devices && l != m.current && m.devices[l].file.Some?
                ==> m.devices[l].file.value in d'
  {
  }

  datatype StartResult = StartResult(manager: Manager, disk: Disk, path: Path)

  /** `start_recording()`: starts recording on the selected camera into the
      day's output directory. */
  function StartRecording(m: Manager, d: Disk, now: DateTime): (r: StartResult)
    requires Wf(m) && ValidDateTime(now)
    ensures Wf(r.manager) && r.manager.current == m.current && r.manager.labels == m.labels
    ensures IsRecording(r.manager)
    ensures r.path == RecordingPath(m.outDir, m.current, now)
    ensures r.manager.devices[m.current].file == Some(r.path)
    ensures forall l :: l in m.devices && l != m.current ==> r.manager.devices[l] == m.devices[l]
    ensures FilesOnDisk(m, d) ==> FilesOnDisk(r.manager, r.disk)
    ensures forall p :: p in d && p != r.path ==> p in r.disk && r.disk[p] == d[p]
  {
    var st := Device.StartRecording(m.devices[m.current], d, m.outDir, now);
    OtherFilesKept(m, d, st.disk);
    WithActiveWf(m, st.session, d, st.disk);
    StartResult(WithActive(m, st.session), st.disk, st.path)
  }

  /** The remux tool's result: the MP4 it wrote, or a failure (tool missing or
      conversion error). */
  datatype Remux = Converted(mp4: Bytes) | ConversionFailed

  datatype Finished = Finished(manager: Manager, disk: Disk, path: Option<Path>)

  /** The disk side of `stop_recording()` once a raw file `raw` of camera `cam`
      was closed: a successful remux writes the `.mp4` sibling and deletes the raw
      file, a failed one leaves the disk alone and keeps the raw path. */
  function Publish(cam: string, raw: Path, d: Disk, remux: Remux): (r: (Disk, Path))
    requires IsRawNameOf(cam, raw.name)
    ensures remux.ConversionFailed? ==> r == (d, raw)
    ensures remux.Converted? ==>
              && r.1 == Path(raw.dir, Stem(raw.name) + Mp4Ext)
              && Suffix(r.1.name) == Mp4Ext
              && raw !in r.0
              && r.1 in r.0 && r.0[r.1] == remux.mp4
              && forall other :: !IsRawNameOf(other, r.1.name)
    ensures remux.Converted? ==> forall p :: p in d && p != raw && p != r.1 ==> p in r.0 && r.0[p] == d[p]
  {
    RawNameSuffix(cam, raw.name);
    Mp4SiblingOfRawName(cam, raw);
    WithSuffixKeepsStem(raw, Mp4Ext);
    var mp4 := Mp4Sibling(raw);
    match remux
    case Converted(bytes) => (Unlink(d[mp4 := bytes], raw), mp4)
    case ConversionFailed => (d, raw)
  }

  /** `stop_recording()`: stops the selected camera; when a file was open, remuxes
      it to the `.mp4` sibling and returns that path after deleting the raw file,
      or keeps and returns the raw path when the remux fails. With no open file
      it returns `None` and touches nothing. */
  function StopRecording(m: Manager, d: Disk, remux: Remux): (r: Finished)
    requires Wf(m)
    ensures Wf(r.manager) && !IsRecording(r.manager)
    ensures r.manager.current == m.current && r.manager.labels == m.labels
    ensures forall l :: l in m.devices && l != m.current ==> r.manager.devices[l] == m.devices[l]
    ensures m.devices[m.current].file.None? ==> r.path.None? && r.disk == d
    ensures m.devices[m.current].file.Some? && remux.ConversionFailed? ==>
              r.path == m.devices[m.current].file && r.disk == d
    ensures m.devices[m.current].file.Some? && remux.Converted? ==>
              var raw := m.devices[m.current].file.value;
              && r.path == Some(Path(raw.dir, Stem(raw.name) + Mp4Ext))
              && Suffix(r.path.value.name) == Mp4Ext
              && raw !in r.disk
              && r.path.value in r.disk && r.disk[r.path.value] == remux.mp4
  {
    var stopped := Device.StopRecording(m.devices[m.current]);
    WithActiveWf(m, stopped.session, d, d);
    var m1 := WithActive(m, stopped.session);
    // A `PosixPath` is always truthy, so `if h264_path:` tests for `None` only.
    match stopped.path
    case None => Finished(m1, d, None)
    case Some(raw) =>
      var published := Publish(m.current, raw, d, remux);
      Finished(m1, published.0, Some(published.1))
  }

  /** Stopping the selected camera never touches the file another camera is
      recording to, and every open file still exists afterwards. */
  lemma StopLeavesOtherCamerasAlone(m: Manager, d: Disk, remux: Remux)
    requires Wf(m) && FilesOnDisk(m, d)
    ensures var r := StopRecording(m, d, remux);
            && FilesOnDisk(r.manager, r.disk)
            && forall l :: l in m.devices && l != m.current && m.devices[l].file.Some? ==>
                 r.disk[m.devices[l].file.value] == d[m.devices[l].file.value]
  {
    var s := m.devices[m.current];
    if s.file.Some? && remux.Converted? {
      var raw := s.file.value;
      Mp4SiblingOfRawName(m.current, raw);
      forall l | l in m.devices && l != m.current && m.devices[l].file.Some?
        ensures m.devices[l].file.value != raw
        ensures m.devices[l].file.value != Mp4Sibling(raw)
      {
        RawNamesOfDistinctLabels(l, m.devices[l].file.value.name, m.current, raw.name);
      }
    }
  }

  /** The path `stop_recording()` returns names a file that exists when it returns. */
  lemma StopReturnsExistingFile(m: Manager, d: Disk, remux: Remux)
    requires Wf(m) && FilesOnDisk(m, d)
    ensures var r := StopRecording(m, d, remux);
            r.path.Some? ==> r.path.value in r.disk
  {
  }

  datatype Drained = Drained(manager: Manager, disk: Disk)

  /** One iteration of the drain loop of the camera labelled `cam`. */
  function Drain(m: Manager, d: Disk, cam: string, q: Capture.Queues): (r: Drained)
    requires Wf(m) && cam in m.devices
    ensures Wf(r.manager) && r.manager.current == m.current && r.manager.labels == m.labels
    ensures forall l :: l in m.devices && l != cam ==> r.manager.devices[l] == m.devices[l]
    ensures r.disk.Keys == d.Keys
    ensures FilesOnDisk(m, d) ==> FilesOnDisk(r.manager, r.disk)
    ensures forall p :: p in d && Some(p) != m.devices[cam].file ==> r.disk[p] == d[p]
  {
    var step := Capture.DrainStep(m.devices[cam], d, q);
    Drained(m.(devices := m.devices[cam := step.session]), step.disk)
  }

  /** What reaches the manager: web requests and capture-thread iterations. */
  datatype Request =
    | ToggleReq
    | SelectReq(cam: string)
    | StartReq(now: DateTime)
    | StopReq(remux: Remux)
    | DrainReq(cam: string, queues: Capture.Queues)

  /** A start carries a real time stamp; drain iterations come from registered
      cameras. Requests never change the registered labels, so this is a
      property of each request on its own. */
  predicate Feasible(labels: seq<string>, req: Request)
  {
    match req
    case StartReq(now) => ValidDateTime(now)
    case DrainReq(cam, _) => cam in labels
    case _ => true
  }

  function Apply(m: Manager, d: Disk, req: Request): (r: (Manager, Disk))
    requires Wf(m) && FilesOnDisk(m, d) && Feasible(m.labels, req)
    ensures Wf(r.0) && FilesOnDisk(r.0, r.1)
    ensures r.0.labels == m.labels && r.0.devices.Keys == m.devices.Keys && r.0.outDir == m.outDir
  {
    match req
    case ToggleReq => (Toggle(m).manager, d)
    case SelectReq(cam) => (SetCurrent(m, cam), d)
    case StartReq(now) =>
      var st := StartRecording(m, d, now);
      (st.manager, st.disk)
    case StopReq(remux) =>
      StopLeavesOtherCamerasAlone(m, d, remux);
      var f := StopRecording(m, d, remux);
      (f.manager, f.disk)
    case DrainReq(cam, q) =>
      var f := Drain(m, d, cam, q);
      (f.manager, f.disk)
  }

  predicate AllFeasible(labels: seq<string>, reqs: seq<Request>)
    decreases |reqs|
  {
    reqs == [] || (Feasible(labels, reqs[0]) && AllFeasible(labels, reqs[1..]))
  }

  function Serve(m: Manager, d: Disk, reqs: seq<Request>): (r: (Manager, Disk))
    requires Wf(m) && FilesOnDisk(m, d) && AllFeasible(m.labels, reqs)
    decreases |reqs|
  {
    if reqs == [] then (m, d)
    else
      var next := Apply(m, d, reqs[0]);
      Serve(next.0, next.1, reqs[1..])
  }

  /** From construction on, whatever requests and drain iterations arrive, the
      selected label stays registered, each camera's recording flag agrees with
      its open file, and every open file lives in the day's directory under its
      camera's label and exists on disk. */
  lemma {:induction false} ServeKeepsInvariants(mapping: seq<(string, string)>, today: Date,
                                               d: Disk, reqs: seq<Request>)
    requires DistinctLabels(mapping) && ValidDate(today) && mapping != []
    requires AllFeasible(Labels(mapping), reqs)
    ensures var r := Serve(New(mapping, today).value, d, reqs);
            && r.0.current in Labels(mapping)
            && (forall l :: l in r.0.devices <==> l in Labels(mapping))
            && (forall l :: l in r.0.devices ==>
                  var s := r.0.devices[l];
                  && (Device.IsRecording(s) <==> s.file.Some?)
                  && (s.file.Some? ==>
                        && s.file.value.dir == OutputDir(today)
                        && IsRawNameOf(l, s.file.value.name)
                        && s.file.value in r.1))
  {
    var m := New(mapping, today).value;
    ServeInvariants(m, d, reqs);
    var r := Serve(m, d, reqs);
    assert Wf(r.0) && FilesOnDisk(r.0, r.1);
    assert r.0.labels == Labels(mapping) && r.0.outDir == OutputDir(today);
    forall l | l in r.0.devices
      ensures var s := r.0.devices[l];
              && (Device.IsRecording(s) <==> s.file.Some?)
              && (s.file.Some? ==>
                    && s.file.value.dir == OutputDir(today)
                    && IsRawNameOf(l, s.file.value.name)
                    && s.file.value in r.1)
    {
      var s := r.0.devices[l];
      assert s.camLabel == l && Inv(s) && OwnsFile(s, r.0.outDir);
      assert FileOnDisk(s, r.1);
    }
  }

  lemma {:induction false} ServeInvariants(m: Manager, d: Disk, reqs: seq<Request>)
    requires Wf(m) && FilesOnDisk(m, d) && AllFeasible(m.labels, reqs)
    ensures var r := Serve(m, d, reqs);
            Wf(r.0) && FilesOnDisk(r.0, r.1) && r.0.labels == m.labels && r.0.outDir == m.outDir
    decreases |reqs|
  {
    if reqs != [] {
      var next := Apply(m, d, reqs[0]);
      ServeInvariants(next.0, next.1, reqs[1..]);
    }
  }
}

=== FILE: naming.dfy ===
/** Names of recording files: `{cam}_{%Y%m%d_%H%M%S}.h264` while raw, and the
    `.mp4` sibling produced by the remux. */
module Naming {
  import opened Clock
  import opened Files

  const RawExt := ".h264"
  const Mp4Ext := ".mp4"

  /** `f"{cam}_{ts}.h264"`. */
  function RecordingName(cam: string, t: DateTime): string
    requires ValidDateTime(t)
  {
    cam + "_" + Stamp(t) + RawExt
  }

  /** `out_dir / f"{cam}_{ts}.h264"`. */
  function RecordingPath(dir: string, cam: string, t: DateTime): Path
    requires ValidDateTime(t)
  {
    Path(dir, RecordingName(cam, t))
  }

  /** `name` is a raw recording name written by the camera labelled `cam`. */
  predicate IsRawNameOf(cam: string, name: string)
  {
    && |name| == |cam| + 21
    && name[..|cam|] == cam
    && name[|cam|] == '_'
    && StampShape(name[|cam| + 1..|cam| + 16])
    && name[|cam| + 16..] == RawExt
  }

  /** The cam a raw recording name was written for. */
  function LabelOf(name: string): string
    requires |name| >= 21
  {
    name[..|name| - 21]
  }

  /** The instant a raw recording name was stamped with. */
  function StampOf(name: string): DateTime
    requires |name| >= 21 && StampShape(name[|name| - 20..|name| - 5])
  {
    ParseStamp(name[|name| - 20..|name| - 5])
  }

  /** A recording name has the raw shape, its suffix is ".h264", and the cam and
      instant it was made from can be read back out of it. */
  lemma RecordingNameRoundTrip(cam: string, t: DateTime)
    requires ValidDateTime(t)
    ensures var n := RecordingName(cam, t);
            && IsRawNameOf(cam, n)
            && LabelOf(n) == cam
            && StampOf(n) == t
            && Suffix(n) == RawExt
            && Stem(n) == cam + "_" + Stamp(t)
  {
    var n := RecordingName(cam, t);
    assert n[..|cam|] == cam;
    assert n[|cam| + 1..|cam| + 16] == Stamp(t);
    assert n[|cam| + 16..] == RawExt;
    StampRoundTrip(t);
    RawNameSuffix(cam, n);
  }

  /** Every raw recording name ends in the ".h264" suffix, whatever dots the cam holds. */
  lemma RawNameSuffix(cam: string, n: string)
    requires IsRawNameOf(cam, n)
    ensures Suffix(n) == RawExt
    ensures Stem(n) == n[..|n| - 5]
  {
    var i := LastDot(n);
    assert n[|n| - 5..] == RawExt;
    assert n[|n| - 5] == '.';
    assert i >= |n| - 5;
    assert n[|n| - 4] == 'h' && n[|n| - 3] == '2' && n[|n| - 2] == '6' && n[|n| - 1] == '4';
    assert i == |n| - 5;
  }

  /** Two recordings share a file name only when they share the cam and the
      second of their start. */
  lemma RecordingNameInjective(l1: string, t1: DateTime, l2: string, t2: DateTime)
    requires ValidDateTime(t1) && ValidDateTime(t2)
    ensures RecordingName(l1, t1) == RecordingName(l2, t2) <==> l1 == l2 && t1 == t2
  {
    RecordingNameRoundTrip(l1, t1);
    RecordingNameRoundTrip(l2, t2);
  }

  /** Cameras with different labels never write to the same raw file name. */
  lemma RawNamesOfDistinctLabels(l1: string, n1: string, l2: string, n2: string)
    requires IsRawNameOf(l1, n1) && IsRawNameOf(l2, n2) && l1 != l2
    ensures n1 != n2
  {
    if |n1| == |n2| {
      assert |l1| == |l2|;
      assert n1[..|l1|] == l1 != l2 == n2[..|l2|];
    }
  }

  /** `h264_path.with_suffix(".mp4")`. */
  function Mp4Sibling(p: Path): Path
    requires p.name != ""
  {
    WithSuffix(p, Mp4Ext)
  }

  /** The remuxed file sits next to the raw one, keeps its stem, and is never a
      raw recording name of any camera. */
  lemma Mp4SiblingOfRawName(cam: string, p: Path)
    requires IsRawNameOf(cam, p.name)
    ensures Mp4Sibling(p) == Path(p.dir, p.name[..|p.name| - 5] + Mp4Ext)
    ensures Suffix(Mp4Sibling(p).name) == Mp4Ext
    ensures forall other :: !IsRawNameOf(other, Mp4Sibling(p).name)
  {
    RawNameSuffix(cam, p.name);
    WithSuffixKeepsStem(p, Mp4Ext);
    var m := Mp4Sibling(p).name;
    assert m[|m| - 4] == '.';
    forall other
      ensures !IsRawNameOf(other, m)
    {
      if |m| == |other| + 21 {
        assert m[|other| + 16..][1] == '.' != RawExt[1];
      }
    }
  }
}

=== FILE: queues.dfy ===
/** The device's non-blocking output queues (`getOutputQueue(name, maxSize,
    blocking=False)`): a full queue drops its oldest packet to admit a new one,
    and the host takes packets with a `tryGet` that never waits. */
module PacketQueue {
  import opened Basics

  /** `getOutputQueue("mjpeg", maxSize=10, blocking=False)`. */
  const PreviewCapacity: nat := 10

  /** `getOutputQueue("h264", maxSize=30, blocking=False)`. */
  const RecordingCapacity: nat := 30

  /** The newest `cap` elements of `s`, oldest first. */
  function Newest<T>(s: seq<T>, cap: nat): seq<T>
  {
    if |s| <= cap then s else s[|s| - cap..]
  }

  /** The device side of a non-blocking queue: one packet arrives. */
  function Push<T>(q: seq<T>, x: T, cap: nat): (r: seq<T>)
    requires 0 < cap && |q| <= cap
    ensures r == Newest(q + [x], cap)
  {
    if |q| < cap then q + [x] else q[1..] + [x]
  }

  /** Several packets arrive, in order. Whatever the queue held before, it ends
      with the newest `cap` packets of the whole history, so nothing is lost while
      the queue is drained before it overflows. */
  function PushAll<T>(q: seq<T>, xs: seq<T>, cap: nat): (r: seq<T>)
    requires 0 < cap && |q| <= cap
    ensures r == Newest(q + xs, cap)
    ensures |q| + |xs| <= cap ==> r == q + xs
    decreases |xs|
  {
    if xs == [] then
      assert q + xs == q;
      q
    else
      assert xs == [xs[0]] + xs[1..];
      NewestAssoc(q, xs[0], xs[1..], cap);
      PushAll(Push(q, xs[0], cap), xs[1..], cap)
  }

  /** Keeping the newest `cap` after each step equals keeping them once at the end. */
  lemma NewestAssoc<T>(q: seq<T>, x: T, rest: seq<T>, cap: nat)
    requires 0 < cap && |q| <= cap
    ensures Newest(Newest(q + [x], cap) + rest, cap) == Newest(q + ([x] + rest), cap)
  {
    var s := q + ([x] + rest);
    assert (q + [x]) + rest == s;
    if |q| + 1 > cap {
      var n := Newest(q + [x], cap);
      assert n == (q + [x])[1..];
      assert n + rest == s[1..];
    }
  }

  /** `tryGet()`: the oldest packet and the rest of the queue, or `None` when empty. */
  function TryGet<T>(q: seq<T>): (r: (Option<T>, seq<T>))
    ensures q == [] ==> r == (None, [])
    ensures q != [] ==> r.0 == Some(q[0]) && [q[0]] + r.1 == q
  {
    if q == [] then (None, []) else (Some(q[0]), q[1..])
  }
}

=== FILE: reconnect.dfy ===
/** The bounded retry that opens the device at the start of the capture thread.
    The device library is an oracle: `opens(k)` says whether attempt `k`
    (counting from 0) opens the device and gets both output queues, and
    `stopSet(k)` whether the stop event is seen set when the loop condition is
    checked before attempt `k`. */
module Reconnect {

  /** `if open_attempts > 10: raise`: the failure of attempt 11 is re-raised. */
  const MaxRetries: nat := 10

  datatype Outcome =
    | Opened(attempts: nat)      // the loop broke out with an open device
    | GaveUp(attempts: nat)      // the last failure propagated out of the thread
    | Cancelled(attempts: nat)   // the stop event ended the loop; no device is open

  /** The loop from the point where `failures` attempts have failed. */
  function OpenLoop(failures: nat, stopSet: nat -> bool, opens: nat -> bool): (r: Outcome)
    requires failures <= MaxRetries
    ensures failures <= r.attempts <= MaxRetries + 1
    ensures r.Opened? ==> failures < r.attempts && opens(r.attempts - 1)
    ensures r.GaveUp? ==> r.attempts == MaxRetries + 1 && !opens(MaxRetries)
    ensures r.Cancelled? ==> stopSet(r.attempts)
    decreases MaxRetries - failures
  {
    if stopSet(failures) then Cancelled(failures)
    else if opens(failures) then Opened(failures + 1)
    else if failures + 1 > MaxRetries then GaveUp(failures + 1)
    else OpenLoop(failures + 1, stopSet, opens)
  }

  /** No attempt before `n` was preceded by a stop or succeeded. */
  predicate QuietFailures(n: nat, stopSet: nat -> bool, opens: nat -> bool)
  {
    forall k :: 0 <= k < n ==> !stopSet(k) && !opens(k)
  }

  /** What each outcome of the loop means about the attempts made: every attempt
      before the last failed without a stop; the device opened on the last one, or
      the eleventh failure was raised, or the stop was seen. */
  lemma {:induction false} OpenLoopOutcome(failures: nat, stopSet: nat -> bool, opens: nat -> bool)
    requires failures <= MaxRetries
    requires QuietFailures(failures, stopSet, opens)
    ensures var r := OpenLoop(failures, stopSet, opens);
            match r
            case Opened(n) => QuietFailures(n - 1, stopSet, opens) && !stopSet(n - 1) && opens(n - 1)
            case GaveUp(n) => n == MaxRetries + 1 && QuietFailures(n, stopSet, opens)
            case Cancelled(n) => QuietFailures(n, stopSet, opens) && stopSet(n)
    decreases MaxRetries - failures
  {
    if !stopSet(failures) && !opens(failures) && failures + 1 <= MaxRetries {
      assert QuietFailures(failures + 1, stopSet, opens) by {
        forall k | 0 <= k < failures + 1
          ensures !stopSet(k) && !opens(k)
        {
          if k < failures {
            assert !stopSet(k) && !opens(k);
          }
        }
      }
      OpenLoopOutcome(failures + 1, stopSet, opens);
    } else if !stopSet(failures) && !opens(failures) {
      assert QuietFailures(failures + 1, stopSet, opens) by {
        forall k | 0 <= k < failures + 1
          ensures !stopSet(k) && !opens(k)
        {
          if k < failures {
            assert !stopSet(k) && !opens(k);
          }
        }
      }
    }
  }

  /** The device opens on attempt `n` exactly when attempts 1..n-1 failed with no
      stop seen, attempt `n` succeeded with no stop seen, and n <= 11. */
  lemma OpenedIff(n: nat, stopSet: nat -> bool, opens: nat -> bool)
    ensures OpenLoop(0, stopSet, opens) == Opened(n)
            <==> 1 <= n <= MaxRetries + 1 && QuietFailures(n - 1, stopSet, opens)
                 && !stopSet(n - 1) && opens(n - 1)
  {
    OpenLoopOutcome(0, stopSet, opens);
  }

  /** The failure propagates exactly when eleven attempts in a row failed with no
      stop seen. */
  lemma GaveUpIff(stopSet: nat -> bool, opens: nat -> bool)
    ensures OpenLoop(0, stopSet, opens).GaveUp? <==> QuietFailures(MaxRetries + 1, stopSet, opens)
  {
    OpenLoopOutcome(0, stopSet, opens);
  }

  /** The loop as written: try, and on failure count it, re-raise past ten, or
      sleep one second and try again. `sleeps` counts the one-second pauses. */
  method OpenDevice(stopSet: nat -> bool, opens: nat -> bool) returns (r: Outcome, sleeps: nat)
    ensures r == OpenLoop(0, stopSet, opens)
    ensures r.attempts <= MaxRetries + 1 && sleeps <= MaxRetries
    ensures sleeps == match r
                      case Opened(n) => n - 1
                      case GaveUp(_) => MaxRetries
                      case Cancelled(n) => n
  {
    var openAttempts: nat := 0;
    sleeps := 0;
    while true
      invariant openAttempts <= MaxRetries && sleeps == openAttempts
      invariant OpenLoop(openAttempts, stopSet, opens) == OpenLoop(0, stopSet, opens)
      decreases MaxRetries - openAttempts
    {
      if stopSet(openAttempts) {
        return Cancelled(openAttempts), sleeps;
      }
      if opens(openAttempts) {
        return Opened(openAttempts + 1), sleeps;
      }
      if openAttempts + 1 > MaxRetries {
        return GaveUp(openAttempts + 1), sleeps;
      }
      openAttempts := openAttempts + 1;
      sleeps := sleeps + 1;
    }
  }
}
